=== FILE: README.md ===
# envsync core, modelled in Dafny

envsync keeps a project's `.env` file encrypted in git. Each developer has a
key file, `.envsync.key`, holding 64 hexadecimal digits. `envsync lock`
encrypts `.env` into `.env.locked`. That file is an envelope: the magic
value "ENVSYNC1", a 32-byte salt, a 16-byte iv and a 16-byte
authentication tag, followed by the AES-256-GCM ciphertext. The cipher key
is derived from the master key and the salt with scrypt. `envsync unlock`
reverses this.

Around the cipher there are three more pieces:
- the `.gitignore` maintenance: append the envsync entries that are missing, and decide whether a file is ignored;
- a git post-merge hook that unlocks after a pull;
- `envsync diff`, which redacts `KEY=value` lines and counts added and removed lines.

The model is written as pure functions over immutable values:

| file | module | models |
|---|---|---|
| `results.dfy` | `Results` | `Option` and `Result` (thrown errors become `Failure` values) |
| `jstext.dfy` | `JsText` | the JavaScript string operations the core relies on |
| `hex.dfy` | `Hex` | bytes, and `toString("hex")` / `Buffer.from(s, "hex")` |
| `crypto.dfy` | `Crypto` | the key store and the lock-file envelope |
| `gitignore.dfy` | `Gitignore` | `updateGitignore` and `isGitignored` |
| `hooks.dfy` | `Hooks` | `installHook` and `removeHook` |
| `diff.dfy` | `Diff` | `redactValue`, the line split of a diff part, and the added/removed counting |

The `JsText` operations are:
- `trim` and `trimEnd`, with the JavaScript whitespace set;
- `split("\n")` and `join("\n")`;
- `startsWith`, `endsWith` and `includes`;
- `.length` in UTF-16 units.

Files are modelled as `Option<string>` contents, where an absent file is
`None`. Random bytes are parameters. The cryptographic primitives are a
`Primitives` value: scrypt, seal and open. Their one property the codec
relies on is the hypothesis `Crypto.Sound`: opening a sealed message with
the same key and iv gives the message back, and the tag is 16 bytes.

Short lock files. A lock file that starts with the magic value but is
shorter than 72 bytes gets short `subarray` views for the iv and the tag
(src/crypto.ts:86-95). Node then throws from `createDecipheriv` (an empty iv)
or from `setAuthTag` (a tag shorter than 16 bytes) at src/crypto.ts:99-102.
That is before the `try` at line 104, so the error is not the "decryption
failed" one. The model reports this case as `Truncated`, distinct from
`DecryptionFailed`.

Two more behaviours of the code that a reader may not expect, both modelled as written:
- Removing a hook that had been appended to an existing script keeps that script and also the `#!/bin/sh` line that opened the appended block. Only the marker line and what follows it are removed. `Hooks.RemoveAfterUpdate` states this.
- `redactValue` applies its pattern to the whole string, because the pattern has no `m` flag. The key may run across line breaks up to the first `=`. The value stops at the first line terminator, and everything from there on is kept.

## Model

| member | source | states |
|---|---|---|
| Crypto.LoadKey | src/crypto.ts:30-42 | a missing key file is the not-found error and only that; the malformed error happens exactly when the trimmed content is not 64 hex digits of either case; otherwise the key is 32 bytes whose lowercase hex is the trimmed content, lowercased |
| Crypto.GenerateKey | src/crypto.ts:24-28 | the returned key is 64 lowercase hex digits, and the key file holds it followed by a newline |
| Crypto.GenerateThenLoad | src/crypto.ts:24-42 | loading a freshly generated key file gives back exactly the random bytes it was made from |
| Hex.DecodeEncode | src/crypto.ts:25 | decoding the hex text of a byte string gives back the bytes |
| Hex.EncodeDecode | src/crypto.ts:37-41 | re-encoding a decoded hex text gives that text in lowercase, so the key-file check and the decode agree for either case |
| Hex.Encode | src/crypto.ts:25 | hex text is two lowercase digits per byte |
| Hex.Decode | src/crypto.ts:41 | an even-length hex text decodes to half as many bytes; `Hex.DecodeEncode` and `Hex.EncodeDecode` make it the inverse of `Encode` |
| Crypto.Encrypt | src/crypto.ts:53-72 | the lock file starts with the magic value and holds the salt and the iv at their fixed offsets |
| Crypto.Assemble | src/crypto.ts:71 | the concatenated envelope starts with the magic value and is exactly as long as the magic value and the four fields together |
| Crypto.EncryptLayout | src/crypto.ts:46-72 | the lock file is 72 bytes longer than the ciphertext, carries the tag at bytes 56-71 and the ciphertext after them, and parses back into the very fields that were concatenated |
| Crypto.ParseFields | src/crypto.ts:76-95 | the header parse fails exactly when the magic value is missing, and then only with the bad-magic error; the parsed fields always reassemble into the input; all three fields have their full size exactly when the input is at least 72 bytes long |
| Crypto.SubarraysCover | src/crypto.ts:86-95 | consecutive clamped `subarray` views, followed by the rest, cover the buffer exactly, whatever its length |
| Crypto.ParseAssemble | src/crypto.ts:71-95 | parsing a concatenated envelope with full-size fields recovers those fields |
| Crypto.Decrypt | src/crypto.ts:74-114 | bad magic is reported exactly when the magic value is missing; a truncated header is reported exactly when the magic is present but the input is shorter than 72 bytes; otherwise decryption fails exactly when authenticated decryption of the fields at their fixed offsets fails, and else returns its plaintext |
| Crypto.DecryptEncrypt | src/crypto.ts:53-114 | decrypting a lock file with the master key it was made with returns the plaintext, for every salt and iv |
| Crypto.BadMagicUsesNoCrypto | src/crypto.ts:77-84 | on input without the magic value, the outcome is the bad-magic error, whatever the primitives and the key |
| Gitignore.EntriesShape | src/gitignore.ts:4-11 | the header is the only comment among the entries; every entry is a single line that trims to itself |
| Gitignore.PlanEntries | src/gitignore.ts:30-37 | the skipped and appended lists together are as long as the entries, and the added list is no longer than the appended one; `Gitignore.PlanPartition` states which entries go in which list |
| Gitignore.PlanPartition | src/gitignore.ts:30-37 | the loop puts a non-comment entry in `skipped` exactly when it is a present line, and in `added` exactly when it is not; comments are always appended; all three lists keep the entries' order; `added` and `skipped` together are as long as the non-comment entries |
| Gitignore.AllPresent | src/gitignore.ts:30-37 | when every pattern is already present, nothing is added and every pattern is skipped |
| Gitignore.NewLinesAreAdded | src/gitignore.ts:30-37 | without comments among the entries, the appended lines are exactly the added patterns |
| Gitignore.UpdateGitignore | src/gitignore.ts:13-45 | the file is always rewritten, since the header is always appended, and the old content is kept in front |
| Gitignore.UpdatePartition | src/gitignore.ts:24-37 | each of the five patterns is reported as added exactly when no trimmed line of the old file equals it, and as skipped exactly when one does; the header is reported in neither list |
| Gitignore.UpdateContent | src/gitignore.ts:39-42 | the written file is the old content, a newline, the header and the added patterns one per line, and a final newline |
| Gitignore.WrittenLines | src/gitignore.ts:24-42 | the trimmed lines of the written file are the old ones, then the appended lines, then one empty piece |
| Gitignore.UpdateTwice | src/gitignore.ts:13-45 | running the update again on the file it wrote adds nothing and reports all five patterns as skipped |
| Gitignore.FilterThenSome | src/gitignore.ts:50-57 | filtering out blank and comment lines and then looking for a match finds one exactly when some trimmed line is an ignore rule for the file |
| Gitignore.Patterns | src/gitignore.ts:53 | a line is kept exactly when it is neither blank nor a comment; the kept lines appear in the order they had |
| Gitignore.SomeMatches | src/gitignore.ts:54-57 | `some` is true exactly when some pattern of the list is not negated and equals the file or a `/`-suffix of it |
| Gitignore.IsGitignored | src/gitignore.ts:47-58 | without a `.gitignore` nothing is ignored; otherwise a file is ignored exactly when some trimmed line is a non-blank, non-comment, non-negated pattern that equals the file or its last path components |
| Gitignore.InertLine | src/gitignore.ts:50-57 | adding a blank line, a comment or a negated pattern never changes whether a file is ignored |
| Gitignore.NoGlobExpansion | src/gitignore.ts:54-57 | patterns are literal: `.env.*` does not ignore `.env.local` |
| Hooks.InstallHook | src/hooks.ts:23-53 | without a hooks directory the call fails; an existing hook containing the marker is skipped and nothing is written; an existing hook without it gets the script appended after a newline, keeping the old content in front; a missing hook is created with the script; after success the hook file always contains the marker |
| Hooks.InstallTwice | src/hooks.ts:36-41 | installing again after any successful installation is skipped and writes nothing |
| Hooks.FindMarkerLine | src/hooks.ts:64 | the result is the first line that trims to the marker, or -1 exactly when no line does |
| Hooks.MarkerLineIncluded | src/hooks.ts:60-65 | a line that trims to the marker implies that the text includes the marker, so the cheap `includes` test never rejects a file the line search would accept |
| Hooks.RemoveHook | src/hooks.ts:55-76 | a file is rewritten exactly when it exists and has a line that trims to the marker; what is written is the bare shebang line, or a newline-terminated prefix of the old content longer than the shebang |
| Hooks.RemoveCutsAtFirstMarker | src/hooks.ts:63-75 | when line k is the first line that trims to the marker, the file becomes the lines before k, joined and trimmed at the end, plus a newline; it becomes `#!/bin/sh` and a newline instead when that text is at most nine UTF-16 units long |
| Hooks.HookLines | src/hooks.ts:10-21 | the installed script's first line is the shebang and its second line is the marker |
| Hooks.RemoveScript | src/hooks.ts:55-76 | removing a file that is exactly a hook script, whatever its body, leaves only the shebang line |
| Hooks.RemoveAfterInstall | src/hooks.ts:63-71 | removing a freshly installed hook leaves only `#!/bin/sh` and a newline |
| Hooks.FindMarkerSkips | src/hooks.ts:64 | the marker search passes over a prefix of lines none of which trims to the marker |
| Hooks.AppendedMarkerLine | src/hooks.ts:63-64 | in a file ending with an appended hook script, the first marker line is the script's own, right after its shebang line |
| Hooks.RemoveAppendedScript | src/hooks.ts:55-76 | removing a script appended to a marker-free file keeps that file and the shebang line that opened the appended block |
| Hooks.RemoveAfterUpdate | src/hooks.ts:55-76 | removing the hook from a script it had been appended to gives the previous script, a newline and `#!/bin/sh` on a line of its own |
| Diff.MatchKeyValue | src/commands/diff.ts:15 | a found match satisfies the pattern `^([^#=\s][^=]*)=(.+)` |
| Diff.MatchIsUnique | src/commands/diff.ts:15 | the pattern matches a line in at most one way, and whenever it matches the search finds that match |
| Diff.NoMatch | src/commands/diff.ts:15 | when the search finds nothing, the pattern does not match at all |
| Diff.Mask | src/commands/diff.ts:16 | the mask ends in `***`; it is at most five characters; what precedes the stars is a prefix of the value of at most two UTF-16 units |
| Diff.Utf16Prefix | src/commands/diff.ts:16 | the result is the longest prefix of the string within the given number of UTF-16 units |
| Diff.MaskShowsTwo | src/commands/diff.ts:16 | a value longer than four units whose first two characters are in the basic plane is shown as those two characters followed by `***` |
| Diff.MaskHidesShortValues | src/commands/diff.ts:16 | a value of at most four UTF-16 units is shown as `***` alone |
| Diff.RedactValue | src/commands/diff.ts:13-19 | a line the pattern does not match is returned unchanged; on a line it matches, the key and `=` are kept, the value is replaced by its mask, and whatever follows the value, from a line terminator on, is kept |
| Diff.RedactSkipsNonAssignments | src/commands/diff.ts:15 | empty lines, comment lines, and lines starting with `=` or whitespace are never redacted |
| Diff.RedactNeedsAValue | src/commands/diff.ts:15 | a line without `=`, or with nothing visible after its first `=`, is never redacted |
| Diff.FilterDropsTrailingEmpty | src/commands/diff.ts:92-96 | the filter drops only the last line, and only when it is empty; every other line survives, in order |
| Diff.PartLines | src/commands/diff.ts:92-96 | the printed lines of a part are its `split("\n")` pieces without a final empty piece |
| Diff.CountPart | src/commands/diff.ts:98-109 | an added part counts all its printed lines as added; a removed part that is not also marked added counts them as removed; an unchanged part counts toward neither |
| Diff.EmitPart | src/commands/diff.ts:98-109 | one printed line per line of the part, each marked with the part's kind and carrying that line as `redactValue` leaves it, so a matched value is masked before it reaches the terminal |
| Diff.EmitAppend | src/commands/diff.ts:91-110 | the printed output of a list of parts is the output of each part, in order |
| Diff.Tally | src/commands/diff.ts:88-110 | the two counters equal the number of printed lines marked `+` and `-`, over all parts in order |
| JsText.LinesAppend | src/gitignore.ts:24 | splitting `a + "\n" + b` gives the pieces of `a` followed by the pieces of `b` |
| JsText.JoinLinesOfLines | src/hooks.ts:63-68 | joining the pieces of a split with newlines gives back the text |
| JsText.LinesOfJoinLines | src/gitignore.ts:40 | splitting a newline-join of single lines gives back those lines |

## Left out

- Cryptography itself. scrypt and AES-256-GCM are opaque parameters. Tamper and wrong-key detection are properties of GCM, not of this code, so they are not claimed. Only the round trip under `Crypto.Sound` is proved.
- Randomness. `randomBytes` for the key, salt and iv is a parameter. That "the same content always produces different ciphertext" is a statistical property and is not modelled.
- The filesystem:
  - `existsSync`, `readFileSync`, `writeFileSync`, `mkdirSync`, `chmodSync`, file modes (0o600, 0o755) and `path.join`;
  - `keyFilePath`;
  - the `path` field that `installHook` returns.
  Only the file contents before and after each call are modelled.
- UTF-8 encoding and decoding of the plaintext. The codec is modelled on bytes.
- `encryptFile`, `decryptFile` and `decryptToString`. They only add file reads and writes around `encrypt` and `decrypt`.
- `Crypto.Decrypt`: the `Truncated` error stands for Node's exception when the decipher is set up with a short iv or a short tag. The exception's exact text is not modelled.
- The CLI (`cli.ts`) and the `init`, `lock`, `unlock` and `status` commands. Also the parts of `diff` that read files, call `loadKey` and `decryptToString`, and print with colour.
- `diffLines` and `createTwoFilesPatch` come from a library. The changes from `diffLines` are an input to `Diff.Tally`.
- `Diff.Mask`: `slice(0, 2)` can cut a surrogate pair in half and show a lone high surrogate. The model's strings hold whole code points, so it shows only the first character in that case. This is weaker than the code only for values whose first character is in the basic plane and whose second is not: there the code shows the first character and a lone high surrogate, and the model shows the first character alone.
- `Diff.Utf16Prefix`: JavaScript's `slice(0, n)` can end inside a surrogate pair and keep its high surrogate. The model's strings hold whole code points, so it stops before the pair. This is weaker than the code only when the `n`-th unit is the first half of such a pair.

=== FILE: crypto.dfy ===
/** The key store and the lock-file codec of `src/crypto.ts`.

    The key file holds 64 hexadecimal digits; the lock file is the envelope
      "ENVSYNC1"(8) ++ salt(32) ++ iv(16) ++ authTag(16) ++ ciphertext.
    The cryptographic primitives (scrypt, AES-256-GCM) are not modelled: they are
    passed in as a `Primitives` value, and the one fact the codec relies on,
    that opening a sealed message with the same key and iv yields the message,
    is the hypothesis `Sound`. Randomness (salt, iv, key bytes) is a parameter,
    and files are `Option<string>` contents. */
module Crypto {
  import opened Results
  import opened JsText
  import opened Hex

  const KeyLength: nat := 32
  const IvLength: nat := 16
  const SaltLength: nat := 32
  const AuthTagLength: nat := 16

  /** ASCII "ENVSYNC1". */
  const Magic: seq<byte> := [0x45, 0x4E, 0x56, 0x53, 0x59, 0x4E, 0x43, 0x31]

  const SaltOffset: nat := |Magic|
  const IvOffset: nat := SaltOffset + SaltLength
  const AuthTagOffset: nat := IvOffset + IvLength
  /** Where the ciphertext starts: the length of the fixed header, 72. */
  const HeaderLength: nat := AuthTagOffset + AuthTagLength

  // ----- key store -----

  datatype KeyError = KeyNotFound | KeyMalformed

  /** `/^[0-9a-f]{64}$/i`: exactly 64 hexadecimal digits of either case. */
  predicate IsKeyText(s: string) {
    |s| == 2 * KeyLength && IsHexText(s)
  }

  /** `loadKey`: the key file's content, if the file exists, is trimmed,
      validated and hex-decoded. */
  function LoadKey(keyFile: Option<string>): (r: Result<seq<byte>, KeyError>)
    ensures keyFile.None? <==> r == Failure(KeyNotFound)
    ensures r == Failure(KeyMalformed) <==> keyFile.Some? && !IsKeyText(Trim(keyFile.value))
    ensures r.Success? ==> |r.value| == KeyLength
    ensures r.Success? ==> Encode(r.value) == LowerText(Trim(keyFile.value))
  {
    match keyFile
    case None => Failure(KeyNotFound)
    case Some(content) =>
      var raw := Trim(content);
      if !IsKeyText(raw) then Failure(KeyMalformed)
      else
        EncodeDecode(raw);
        Success(Decode(raw))
  }

  /** What `generateKey` returns and what it writes to the key file. */
  datatype GeneratedKey = GeneratedKey(hex: string, fileContent: string)

  /** `generateKey`, with the 32 random bytes as a parameter. */
  function GenerateKey(random: seq<byte>): (g: GeneratedKey)
    requires |random| == KeyLength
    ensures IsKeyText(g.hex)
    ensures forall i | 0 <= i < |g.hex| :: IsLowerHexDigit(g.hex[i])
    ensures g.fileContent == g.hex + "\n"
  {
    var hex := Encode(random);
    GeneratedKey(hex, hex + "\n")
  }

  /** A freshly generated key file loads back as exactly the bytes it was made from. */
  lemma GenerateThenLoad(random: seq<byte>)
    requires |random| == KeyLength
    ensures LoadKey(Some(GenerateKey(random).fileContent)) == Success(random)
  {
    var g := GenerateKey(random);
    var content := g.fileContent;
    assert TrimStart(content) == content;
    assert content[..|content| - 1] == g.hex;
    assert TrimEnd(g.hex) == g.hex;
    assert Trim(content) == g.hex;
    DecodeEncode(random);
  }

  // ----- crypto primitives -----

  /** What the authenticated cipher produces: ciphertext and authentication tag. */
  datatype Sealed = Sealed(ciphertext: seq<byte>, authTag: seq<byte>)

  /** The primitives the codec calls:
      `scrypt(password, salt, keyLength)`,
      `seal(key, iv, plaintext)` for AES-256-GCM encryption with a 16-byte tag, and
      `open(key, iv, authTag, ciphertext)` for authenticated decryption,
      `None` when the tag does not verify. */
  datatype Primitives = Primitives(
    scrypt: (seq<byte>, seq<byte>, nat) -> seq<byte>,
    seal: (seq<byte>, seq<byte>, seq<byte>) -> Sealed,
    open: (seq<byte>, seq<byte>, seq<byte>, seq<byte>) -> Option<seq<byte>>)

  /** The facts about the primitives the codec relies on: the tag has the
      configured length, and opening a sealed message with the same key and
      iv yields the message. */
  ghost predicate Sound(p: Primitives) {
    && (forall key, iv, m :: |p.seal(key, iv, m).authTag| == AuthTagLength)
    && (forall key, iv, m ::
          p.open(key, iv, p.seal(key, iv, m).authTag, p.seal(key, iv, m).ciphertext) == Some(m))
  }

  /** The per-lock key: scrypt of the master key and the salt, 32 bytes long. */
  function DeriveKey(p: Primitives, masterKey: seq<byte>, salt: seq<byte>): seq<byte> {
    p.scrypt(masterKey, salt, KeyLength)
  }

  // ----- envelope layout -----

  /** The fields of a lock file after the magic value. */
  datatype Fields = Fields(salt: seq<byte>, iv: seq<byte>, authTag: seq<byte>, ciphertext: seq<byte>)

  predicate WellSized(f: Fields) {
    |f.salt| == SaltLength && |f.iv| == IvLength && |f.authTag| == AuthTagLength
  }

  predicate HasMagic(data: seq<byte>) {
    |data| >= |Magic| && data[..|Magic|] == Magic
  }

  /** `Buffer.concat([MAGIC, salt, iv, authTag, ciphertext])`. */
  function Assemble(f: Fields): (lock: seq<byte>)
    ensures HasMagic(lock)
    ensures |lock| == |Magic| + |f.salt| + |f.iv| + |f.authTag| + |f.ciphertext|
  {
    Magic + f.salt + f.iv + f.authTag + f.ciphertext
  }

  /** `data.subarray(start, end)`: bounds beyond the end are clamped, so a short
      buffer yields short (possibly empty) views rather than an error. */
  function Subarray(data: seq<byte>, start: nat, end: nat): (r: seq<byte>)
    requires start <= end
    ensures |r| <= end - start
    ensures end <= |data| ==> r == data[start..end]
  {
    var lo := if start <= |data| then start else |data|;
    var hi := if end <= |data| then end else |data|;
    data[lo..hi]
  }

  datatype DecryptError =
    | BadMagic          // "not a valid envsync file or is corrupted (bad magic bytes)"
    | Truncated         // the cipher set-up rejects the short iv or tag; thrown outside the `try`
    | DecryptionFailed  // "decryption failed - wrong key, or the lock file has been tampered with"

  /** The header parse of `decrypt`: the magic check, then the fields read at
      fixed offsets, the ciphertext being everything after them. */
  function ParseFields(data: seq<byte>): (r: Result<Fields, DecryptError>)
    ensures r.Failure? <==> !HasMagic(data)
    ensures r.Failure? ==> r.error == BadMagic
    ensures r.Success? ==> Assemble(r.value) == data
    ensures r.Success? ==> (|data| >= HeaderLength <==> WellSized(r.value))
  {
    var magic := Subarray(data, 0, |Magic|);
    if magic != Magic then Failure(BadMagic)
    else
      var f := Fields(
        Subarray(data, SaltOffset, IvOffset),
        Subarray(data, IvOffset, AuthTagOffset),
        Subarray(data, AuthTagOffset, HeaderLength),
        data[if HeaderLength <= |data| then HeaderLength else |data|..]);
      SubarraysCover(data, |Magic|, IvOffset, AuthTagOffset, HeaderLength);
      Success(f)
  }

  /** Consecutive clamped views, followed by the rest, put the buffer back together. */
  lemma SubarraysCover(data: seq<byte>, a: nat, b: nat, c: nat, d: nat)
    requires a <= |data| && a <= b <= c <= d
    ensures data[..a] + Subarray(data, a, b) + Subarray(data, b, c) + Subarray(data, c, d)
      + data[if d <= |data| then d else |data|..] == data
  {
    var n := |data|;
    var b' := if b <= n then b else n;
    var c' := if c <= n then c else n;
    var d' := if d <= n then d else n;
    assert data[..a] + data[a..b'] + data[b'..c'] + data[c'..d'] + data[d'..] == data;
  }

  /** Parsing an assembled envelope recovers exactly the fields it was built from. */
  lemma ParseAssemble(f: Fields)
    requires WellSized(f)
    ensures ParseFields(Assemble(f)) == Success(f)
  {
    var data := Assemble(f);
    assert data[SaltOffset..IvOffset] == f.salt;
    assert data[IvOffset..AuthTagOffset] == f.iv;
    assert data[AuthTagOffset..HeaderLength] == f.authTag;
    assert data[HeaderLength..] == f.ciphertext;
  }

  // ----- encrypt / decrypt -----

  /** `encrypt`, with the random salt and iv as parameters. */
  function Encrypt(p: Primitives, plaintext: seq<byte>, masterKey: seq<byte>,
                   salt: seq<byte>, iv: seq<byte>): (lock: seq<byte>)
    requires |salt| == SaltLength && |iv| == IvLength
    ensures HasMagic(lock)
    ensures |lock| >= AuthTagOffset
    ensures lock[SaltOffset..IvOffset] == salt
    ensures lock[IvOffset..AuthTagOffset] == iv
  {
    var sealed := p.seal(DeriveKey(p, masterKey, salt), iv, plaintext);
    Assemble(Fields(salt, iv, sealed.authTag, sealed.ciphertext))
  }

  /** `decrypt`. The magic value is checked before any key derivation;
      a failed authentication is one single error and yields no plaintext. */
  function Decrypt(p: Primitives, data: seq<byte>, masterKey: seq<byte>): (r: Result<seq<byte>, DecryptError>)
    ensures r == Failure(BadMagic) <==> !HasMagic(data)
    ensures r == Failure(Truncated) <==> HasMagic(data) && |data| < HeaderLength
    ensures HasMagic(data) && |data| >= HeaderLength ==>
      var outcome := p.open(DeriveKey(p, masterKey, data[SaltOffset..IvOffset]),
                           data[IvOffset..AuthTagOffset], data[AuthTagOffset..HeaderLength],
                           data[HeaderLength..]);
      && (r == Failure(DecryptionFailed) <==> outcome.None?)
      && (r.Success? <==> outcome.Some?)
      && (r.Success? ==> r.value == outcome.value)
  {
    match ParseFields(data)
    case Failure(e) => Failure(e)
    case Success(f) =>
      var derivedKey := DeriveKey(p, masterKey, f.salt);
      // Node rejects an empty GCM iv and, with authTagLength 16, any tag of another length
      if |f.iv| == 0 || |f.authTag| != AuthTagLength then Failure(Truncated)
      else
        match p.open(derivedKey, f.iv, f.authTag, f.ciphertext)
        case None => Failure(DecryptionFailed)
        case Some(plain) => Success(plain)
  }

  /** The lock file is the magic value, salt, iv and tag followed by the
      ciphertext: 72 bytes longer than the ciphertext, parsing back into the
      very fields that were concatenated. */
  lemma EncryptLayout(p: Primitives, plaintext: seq<byte>, masterKey: seq<byte>,
                      salt: seq<byte>, iv: seq<byte>)
    requires Sound(p)
    requires |salt| == SaltLength && |iv| == IvLength
    ensures var sealed := p.seal(DeriveKey(p, masterKey, salt), iv, plaintext);
      var lock := Encrypt(p, plaintext, masterKey, salt, iv);
      && |lock| == HeaderLength + |sealed.ciphertext|
      && lock[AuthTagOffset..HeaderLength] == sealed.authTag
      && lock[HeaderLength..] == sealed.ciphertext
      && ParseFields(lock) == Success(Fields(salt, iv, sealed.authTag, sealed.ciphertext))
  {
    var sealed := p.seal(DeriveKey(p, masterKey, salt), iv, plaintext);
    ParseAssemble(Fields(salt, iv, sealed.authTag, sealed.ciphertext));
  }

  /** Round trip: decrypting a lock file with the master key it was made with
      returns the plaintext, whatever the salt and iv. */
  lemma DecryptEncrypt(p: Primitives, plaintext: seq<byte>, masterKey: seq<byte>,
                       salt: seq<byte>, iv: seq<byte>)
    requires Sound(p)
    requires |salt| == SaltLength && |iv| == IvLength
    ensures Decrypt(p, Encrypt(p, plaintext, masterKey, salt, iv), masterKey) == Success(plaintext)
  {
    var sealed := p.seal(DeriveKey(p, masterKey, salt), iv, plaintext);
    ParseAssemble(Fields(salt, iv, sealed.authTag, sealed.ciphertext));
  }

  /** On input without the magic value, no key derivation or cipher call
      influences the outcome: every choice of primitives and master key gives
      the same bad-magic failure, including for inputs shorter than 8 bytes. */
  lemma BadMagicUsesNoCrypto(p1: Primitives, p2: Primitives, data: seq<byte>,
                             key1: seq<byte>, key2: seq<byte>)
    requires !HasMagic(data)
    ensures Decrypt(p1, data, key1) == Decrypt(p2, data, key2) == Failure(BadMagic)
  {
  }
}

=== FILE: diff.dfy ===
/** The pure parts of `src/commands/diff.ts`: redacting `KEY=value` lines
    before they are shown, splitting a diff part into lines, and counting the
    added and removed lines. The line diff itself is an input. */
module Diff {
  import opened Results
  import opened JsText

  // ----- redaction -----

  /** `/^([^#=\s][^=]*)=(.+)/` matches `line` with the first group ending
      before position `eq` (an '=') and the second group spanning `eq+1..end`:
      the key's first character is not '#', '=' or whitespace, the key has no
      '=', and the value is the longest non-empty run of characters other than
      line terminators. */
  predicate IsMatchAt(line: string, eq: nat, end: nat) {
    && 0 < eq && eq + 1 < end <= |line|
    && line[eq] == '='
    && line[0] != '#' && !IsJsSpace(line[0])
    && (forall j | 0 <= j < eq :: line[j] != '=')
    && (forall j | eq < j < end :: !IsLineTerminator(line[j]))
    && (end == |line| || IsLineTerminator(line[end]))
  }

  /** The position of the first `c` in `s`, or -1. */
  function IndexOf(s: string, c: char): (r: int)
    ensures -1 <= r < |s|
    ensures r >= 0 ==> s[r] == c && forall j | 0 <= j < r :: s[j] != c
    ensures r == -1 ==> forall j | 0 <= j < |s| :: s[j] != c
  {
    if |s| == 0 then -1
    else if s[0] == c then 0
    else
      var r := IndexOf(s[1..], c);
      if r == -1 then -1 else r + 1
  }

  /** Where the run of non-terminator characters starting at `from` ends. */
  function RunEnd(line: string, from: nat): (end: nat)
    requires from <= |line|
    ensures from <= end <= |line|
    ensures forall j | from <= j < end :: !IsLineTerminator(line[j])
    ensures end == |line| || IsLineTerminator(line[end])
    decreases |line| - from
  {
    if from == |line| || IsLineTerminator(line[from]) then from else RunEnd(line, from + 1)
  }

  /** The positions of the '=' and of the end of the value, when the pattern matches. */
  function MatchKeyValue(line: string): (m: Option<(nat, nat)>)
    ensures m.Some? ==> IsMatchAt(line, m.value.0, m.value.1)
  {
    if |line| == 0 || line[0] == '#' || line[0] == '=' || IsJsSpace(line[0]) then None
    else
      var eq := IndexOf(line, '=');
      if eq < 0 then None
      else
        var end := RunEnd(line, eq + 1);
        if end == eq + 1 then None else Some((eq, end))
  }

  /** The pattern matches a line in at most one way, and `MatchKeyValue`
      finds it whenever it exists. */
  lemma MatchIsUnique(line: string, eq: nat, end: nat)
    requires IsMatchAt(line, eq, end)
    ensures MatchKeyValue(line) == Some((eq, end))
  {
    assert line[0] != '=';
    var first := IndexOf(line, '=');
    assert line[eq] == '=';
    assert first >= 0 && line[first] == '=';
    assert first == eq;
    var stop := RunEnd(line, eq + 1);
    assert stop < |line| ==> IsLineTerminator(line[stop]);
    assert end < |line| ==> IsLineTerminator(line[end]);
    assert first == eq && stop == end;
    assert !(|line| == 0 || line[0] == '#' || line[0] == '=' || IsJsSpace(line[0]));
    assert stop != eq + 1;
  }

  /** When `MatchKeyValue` finds nothing, the pattern does not match at all. */
  lemma NoMatch(line: string)
    requires MatchKeyValue(line).None?
    ensures forall eq: nat, end: nat :: !IsMatchAt(line, eq, end)
  {
    forall eq: nat, end: nat | IsMatchAt(line, eq, end)
      ensures false
    {
      MatchIsUnique(line, eq, end);
    }
  }

  /** JavaScript's `s.slice(0, n)`: the longest prefix of at most `n` UTF-16
      units. A prefix that would end inside a surrogate pair stops before it. */
  function Utf16Prefix(s: string, n: nat): (r: string)
    ensures StartsWith(s, r)
    ensures Utf16Length(r) <= n && |r| <= n
    ensures |r| == |s| || Utf16Length(r) + CodeUnits(s[|r|]) > n
    decreases |s|
  {
    if |s| == 0 || CodeUnits(s[0]) > n then ""
    else
      var rest := Utf16Prefix(s[1..], n - CodeUnits(s[0]));
      assert ([s[0]] + rest)[1..] == rest;
      [s[0]] + rest
  }

  /** `val.length > 4 ? val.slice(0, 2) + "***" : "***"`. */
  function Mask(value: string): (masked: string)
    ensures EndsWith(masked, "***") && |masked| <= 5
    ensures StartsWith(value, masked[..|masked| - 3])
    ensures Utf16Length(masked[..|masked| - 3]) <= 2
  {
    if Utf16Length(value) > 4 then Utf16Prefix(value, 2) + "***" else "***"
  }

  /** Every match of the pattern is the one `MatchKeyValue` finds. */
  lemma MatchesAreFound(line: string)
    ensures forall eq: nat, end: nat :: IsMatchAt(line, eq, end) ==> MatchKeyValue(line) == Some((eq, end))
  {
    forall eq: nat, end: nat | IsMatchAt(line, eq, end)
      ensures MatchKeyValue(line) == Some((eq, end))
    {
      MatchIsUnique(line, eq, end);
    }
  }

  /** The line with the value at `eq+1..end` replaced by its mask. */
  function MaskedAt(line: string, eq: nat, end: nat): string
    requires eq < end <= |line|
  {
    line[..eq + 1] + Mask(line[eq + 1..end]) + line[end..]
  }

  /** `redactValue`: on a line the pattern matches, the key and '=' are kept,
      the value is replaced by its mask, and whatever follows the value (from
      a line terminator on) is kept; a line the pattern does not match is
      returned as it is. */
  function RedactValue(line: string): (r: string)
    ensures (forall eq: nat, end: nat :: !IsMatchAt(line, eq, end)) ==> r == line
    ensures forall eq: nat, end: nat :: IsMatchAt(line, eq, end) ==> r == MaskedAt(line, eq, end)
  {
    MatchesAreFound(line);
    match MatchKeyValue(line)
    case None => line
    case Some((eq, end)) => MaskedAt(line, eq, end)
  }

  /** Comment lines, lines starting with '=' or whitespace, and empty lines are left alone. */
  lemma RedactSkipsNonAssignments(line: string)
    requires |line| == 0 || line[0] == '#' || line[0] == '=' || IsJsSpace(line[0])
    ensures RedactValue(line) == line
  {
  }

  /** A line without '=', or with nothing shown after its first '=', is left alone. */
  lemma RedactNeedsAValue(line: string)
    requires || (forall j | 0 <= j < |line| :: line[j] != '=')
             || (var eq := IndexOf(line, '='); eq >= 0 && (eq + 1 == |line| || IsLineTerminator(line[eq + 1])))
    ensures RedactValue(line) == line
  {
  }

  /** A value of at most four UTF-16 units is hidden completely. */
  lemma MaskHidesShortValues(value: string)
    requires Utf16Length(value) <= 4
    ensures Mask(value) == "***"
  {
  }

  /** A value longer than four units whose first two characters are in the
      basic plane is masked as those two characters and "***". */
  lemma MaskShowsTwo(value: string)
    requires Utf16Length(value) > 4 && |value| >= 2
    requires CodeUnits(value[0]) == 1 && CodeUnits(value[1]) == 1
    ensures Mask(value) == value[..2] + "***"
  {
    var rest := value[1..];
    assert Utf16Prefix(value, 2) == [value[0]] + Utf16Prefix(rest, 1);
    assert Utf16Prefix(rest, 1) == [rest[0]] + Utf16Prefix(rest[1..], 0);
    assert |Utf16Prefix(rest[1..], 0)| == 0;
    assert value[..2] == [value[0], rest[0]];
  }

  // ----- lines of a diff part -----

  /** The filter callback: drop element `i` when it is the last and is empty. */
  predicate KeepLine(lines: seq<string>, i: nat)
    requires i < |lines|
  {
    !(i == |lines| - 1 && lines[i] == "")
  }

  /** `lines.filter(KeepLine)` from position `i` on. */
  function FilterFrom(lines: seq<string>, i: nat): seq<string>
    requires i <= |lines|
    decreases |lines| - i
  {
    if i == |lines| then []
    else (if KeepLine(lines, i) then [lines[i]] else []) + FilterFrom(lines, i + 1)
  }

  /** The filter removes only the last line, and only when it is empty;
      every other line survives, in order. */
  lemma {:induction false} FilterDropsTrailingEmpty(lines: seq<string>, i: nat)
    requires i <= |lines|
    ensures |lines| > 0 && lines[|lines| - 1] == "" && i < |lines| ==>
      FilterFrom(lines, i) == lines[i..|lines| - 1]
    ensures !(|lines| > 0 && lines[|lines| - 1] == "" && i < |lines|) ==>
      FilterFrom(lines, i) == lines[i..]
    decreases |lines| - i
  {
    if i < |lines| {
      FilterDropsTrailingEmpty(lines, i + 1);
      if i + 1 < |lines| {
        assert lines[i..|lines| - 1] == [lines[i]] + lines[i + 1..|lines| - 1];
      }
      assert lines[i..] == [lines[i]] + lines[i + 1..];
    }
  }

  /** The lines of a diff part as they are printed: its `split("\n")` pieces
      without the empty piece after a trailing newline. */
  function PartLines(value: string): (r: seq<string>)
    ensures var ls := Lines(value);
      r == if ls[|ls| - 1] == "" then ls[..|ls| - 1] else ls
  {
    FilterDropsTrailingEmpty(Lines(value), 0);
    FilterFrom(Lines(value), 0)
  }

  // ----- counting -----

  /** A change object of the line diff: its text and whether it was added or removed. */
  datatype Part = Part(value: string, added: bool, removed: bool)

  datatype Kind = AddedLine | RemovedLine | ContextLine

  /** One printed line: its kind (the "+", "-" or blank prefix) and its redacted text. */
  datatype Emitted = Emitted(kind: Kind, text: string)

  /** `added` is tested before `removed`. */
  function KindOf(part: Part): Kind {
    if part.added then AddedLine else if part.removed then RemovedLine else ContextLine
  }

  /** The lines printed for one part: one per line of the part, each with the
      part's kind and the line's redacted text. */
  function EmitPart(part: Part): (r: seq<Emitted>)
    ensures |r| == |PartLines(part.value)|
    ensures forall i | 0 <= i < |r| :: r[i].kind == KindOf(part)
    ensures forall i | 0 <= i < |r| :: r[i].text == RedactValue(PartLines(part.value)[i])
  {
    var ls := PartLines(part.value);
    seq(|ls|, i requires 0 <= i < |ls| => Emitted(KindOf(part), RedactValue(ls[i])))
  }

  /** Everything the inline diff prints, in order. */
  function Emit(parts: seq<Part>): seq<Emitted>
    decreases |parts|
  {
    if |parts| == 0 then [] else EmitPart(parts[0]) + Emit(parts[1..])
  }

  /** The number of printed lines of one kind. */
  function CountKind(es: seq<Emitted>, k: Kind): nat
    decreases |es|
  {
    if |es| == 0 then 0 else (if es[0].kind == k then 1 else 0) + CountKind(es[1..], k)
  }

  lemma {:induction false} CountKindAppend(a: seq<Emitted>, b: seq<Emitted>, k: Kind)
    ensures CountKind(a + b, k) == CountKind(a, k) + CountKind(b, k)
    decreases |a|
  {
    if |a| > 0 {
      assert (a + b)[1..] == a[1..] + b;
      CountKindAppend(a[1..], b, k);
    } else {
      assert a + b == b;
    }
  }

  lemma {:induction false} CountKindUniform(es: seq<Emitted>, k: Kind)
    requires forall i | 0 <= i < |es| :: es[i].kind == k
    ensures CountKind(es, k) == |es|
    ensures forall k' | k' != k :: CountKind(es, k') == 0
    decreases |es|
  {
    if |es| > 0 {
      CountKindUniform(es[1..], k);
    }
  }

  /** A part contributes all its printed lines to its own kind and none to the
      others: an unchanged part counts toward neither total. */
  lemma CountPart(part: Part)
    ensures CountKind(EmitPart(part), AddedLine) ==
      if part.added then |PartLines(part.value)| else 0
    ensures CountKind(EmitPart(part), RemovedLine) ==
      if !part.added && part.removed then |PartLines(part.value)| else 0
  {
    CountKindUniform(EmitPart(part), KindOf(part));
  }

  lemma EmitSnoc(parts: seq<Part>, i: nat)
    requires i < |parts|
    ensures Emit(parts[..i + 1]) == Emit(parts[..i]) + EmitPart(parts[i])
  {
    EmitAppend(parts[..i], [parts[i]]);
    assert parts[..i + 1] == parts[..i] + [parts[i]];
    assert Emit([parts[i]]) == EmitPart(parts[i]) + Emit([]);
  }

  lemma {:induction false} EmitAppend(a: seq<Part>, b: seq<Part>)
    ensures Emit(a + b) == Emit(a) + Emit(b)
    decreases |a|
  {
    if |a| > 0 {
      assert (a + b)[1..] == a[1..] + b;
      EmitAppend(a[1..], b);
    } else {
      assert a + b == b;
    }
  }

  /** The counting loop of the inline diff: one increment per printed line of
      an added part, or of a removed part. */
  method Tally(parts: seq<Part>) returns (added: nat, removed: nat)
    ensures added == CountKind(Emit(parts), AddedLine)
    ensures removed == CountKind(Emit(parts), RemovedLine)
  {
    added, removed := 0, 0;
    var i := 0;
    while i < |parts|
      invariant 0 <= i <= |parts|
      invariant added == CountKind(Emit(parts[..i]), AddedLine)
      invariant removed == CountKind(Emit(parts[..i]), RemovedLine)
    {
      var part := parts[i];
      var lines := PartLines(part.value);
      ghost var added0, removed0 := added, removed;
      var j := 0;
      while j < |lines|
        invariant 0 <= j <= |lines|
        invariant added == added0 + (if part.added then j else 0)
        invariant removed == removed0 + (if !part.added && part.removed then j else 0)
      {
        if part.added {
          added := added + 1;
        } else if part.removed {
          removed := removed + 1;
        }
        j := j + 1;
      }
      EmitSnoc(parts, i);
      CountKindAppend(Emit(parts[..i]), EmitPart(part), AddedLine);
      CountKindAppend(Emit(parts[..i]), EmitPart(part), RemovedLine);
      CountPart(part);
      i := i + 1;
    }
    assert parts[..i] == parts;
  }
}

=== FILE: gitignore.dfy ===
/** `.gitignore` maintenance of `src/gitignore.ts`: appending the envsync
    entries that are missing, and the literal, suffix-based check of whether a
    file is ignored. File contents are `Option<string>` (absent file = `None`). */
module Gitignore {
  import opened Results
  import opened JsText

  /** The comment line that opens the appended section,
      "# envsync - local secrets (never commit these)". The proofs below need
      its first and last characters and the absence of a newline; the verifier
      reads these off short string literals but not off a single literal of
      this length, so the text is written as three shorter ones. */
  const Header := "# envsync - local " + "secrets (never " + "commit these)"

  /** GITIGNORE_ENTRIES: the comment header and five patterns. */
  const Entries: seq<string> := [Header, ".env", ".env.*", "!.env.example", "!.env.locked", ".envsync.key"]

  predicate IsComment(entry: string) {
    |entry| > 0 && entry[0] == '#'
  }

  /** `lines.map((l) => l.trim())`. */
  function TrimAll(ls: seq<string>): seq<string>
  {
    seq(|ls|, i requires 0 <= i < |ls| => Trim(ls[i]))
  }

  lemma TrimAllAppend(a: seq<string>, b: seq<string>)
    ensures TrimAll(a + b) == TrimAll(a) + TrimAll(b)
  {
  }

  /** `xs` is `ys` with some elements left out, the rest kept in order. */
  predicate IsSubsequence(xs: seq<string>, ys: seq<string>)
    decreases |ys|
  {
    || |xs| == 0
    || (&& |ys| > 0
        && ((xs[0] == ys[0] && IsSubsequence(xs[1..], ys[1..])) || IsSubsequence(xs, ys[1..])))
  }

  /** The entries that are not comments, in order. */
  function NonComments(entries: seq<string>): seq<string>
  {
    if |entries| == 0 then []
    else if IsComment(entries[0]) then NonComments(entries[1..])
    else [entries[0]] + NonComments(entries[1..])
  }

  /** The three lists the loop of `updateGitignore` builds. */
  datatype Plan = Plan(added: seq<string>, skipped: seq<string>, newLines: seq<string>)

  /** The loop over the entries: a comment is always appended; any other entry
      is skipped when it is one of the `present` (trimmed) lines, and otherwise
      appended and reported as added. */
  function PlanEntries(entries: seq<string>, present: seq<string>): (r: Plan)
    ensures |r.skipped| + |r.newLines| == |entries|
    ensures |r.added| <= |r.newLines|
  {
    if |entries| == 0 then Plan([], [], [])
    else
      var e := entries[0];
      var rest := PlanEntries(entries[1..], present);
      if IsComment(e) || e !in present then
        Plan(if IsComment(e) then rest.added else [e] + rest.added, rest.skipped, [e] + rest.newLines)
      else
        Plan(rest.added, [e] + rest.skipped, rest.newLines)
  }

  /** Which entries land in which list. */
  lemma {:induction false} PlanMembers(entries: seq<string>, present: seq<string>)
    ensures var r := PlanEntries(entries, present);
      && (forall e :: e in r.added <==> e in entries && !IsComment(e) && e !in present)
      && (forall e :: e in r.skipped <==> e in entries && !IsComment(e) && e in present)
      && (forall e :: e in r.newLines <==> e in entries && (IsComment(e) || e !in present))
    decreases |entries|
  {
    if |entries| > 0 {
      PlanMembers(entries[1..], present);
      assert entries == [entries[0]] + entries[1..];
    }
  }

  /** Each list keeps the entries' order, and `added` and `skipped` together
      are as long as the non-comment entries. */
  lemma {:induction false} PlanOrder(entries: seq<string>, present: seq<string>)
    ensures var r := PlanEntries(entries, present);
      && IsSubsequence(r.added, entries) && IsSubsequence(r.skipped, entries)
      && IsSubsequence(r.newLines, entries)
      && |r.added| + |r.skipped| == |NonComments(entries)|
    decreases |entries|
  {
    if |entries| > 0 {
      PlanOrder(entries[1..], present);
    }
  }

  /** `added` and `skipped` split the non-comment entries by presence, each
      keeping the entries' order; the appended lines are the comments and the
      added entries. */
  lemma PlanPartition(entries: seq<string>, present: seq<string>)
    ensures var r := PlanEntries(entries, present);
      && (forall e :: e in r.added <==> e in entries && !IsComment(e) && e !in present)
      && (forall e :: e in r.skipped <==> e in entries && !IsComment(e) && e in present)
      && (forall e :: e in r.newLines <==> e in entries && (IsComment(e) || e !in present))
      && IsSubsequence(r.added, entries) && IsSubsequence(r.skipped, entries)
      && IsSubsequence(r.newLines, entries)
      && |r.added| + |r.skipped| == |NonComments(entries)|
  {
    PlanMembers(entries, present);
    PlanOrder(entries, present);
  }

  /** Without comments among the entries, the appended lines are exactly the added entries. */
  lemma {:induction false} NewLinesAreAdded(entries: seq<string>, present: seq<string>)
    requires forall i | 0 <= i < |entries| :: !IsComment(entries[i])
    ensures PlanEntries(entries, present).newLines == PlanEntries(entries, present).added
    decreases |entries|
  {
    if |entries| > 0 {
      NewLinesAreAdded(entries[1..], present);
    }
  }

  /** When every pattern is already present, nothing is added and everything is skipped. */
  lemma {:induction false} AllPresent(entries: seq<string>, present: seq<string>)
    requires forall e | e in entries && !IsComment(e) :: e in present
    ensures PlanEntries(entries, present).added == []
    ensures PlanEntries(entries, present).skipped == NonComments(entries)
    decreases |entries|
  {
    if |entries| > 0 {
      assert forall e | e in entries[1..] :: e in entries;
      AllPresent(entries[1..], present);
    }
  }

  /** The header is the only comment; the patterns contain no newline and trim to themselves. */
  lemma EntriesShape()
    ensures IsComment(Entries[0])
    ensures forall i | 1 <= i < |Entries| :: !IsComment(Entries[i])
    ensures forall i | 0 <= i < |Entries| :: '\n' !in Entries[i] && Trim(Entries[i]) == Entries[i]
    ensures NonComments(Entries) == Entries[1..]
  {
    EntriesHaveNoNewline();
    EntriesTrimToThemselves();
    NonCommentPatterns();
  }

  lemma EntriesHaveNoNewline()
    ensures forall i | 0 <= i < |Entries| :: '\n' !in Entries[i]
  {
    assert '\n' !in Header;
  }

  lemma EntriesTrimToThemselves()
    ensures forall i | 0 <= i < |Entries| :: Trim(Entries[i]) == Entries[i]
  {
    assert Header[0] == '#' && Header[|Header| - 1] == ')';
    TrimFixed(Header);
    TrimFixed(Entries[1]);
    TrimFixed(Entries[2]);
    TrimFixed(Entries[3]);
    TrimFixed(Entries[4]);
    TrimFixed(Entries[5]);
  }

  lemma NonCommentPatterns()
    ensures NonComments(Entries) == Entries[1..]
  {
    var tail := Entries[1..];
    assert NonComments(tail[5..]) == [];
    assert NonComments(tail[4..]) == tail[4..];
    assert NonComments(tail[3..]) == tail[3..];
    assert NonComments(tail[2..]) == tail[2..];
    assert NonComments(tail[1..]) == tail[1..];
    assert NonComments(tail) == tail;
  }

  /** What `updateGitignore` returns, and the content it writes, if any. */
  datatype Update = Update(added: seq<string>, skipped: seq<string>, written: Option<string>)

  function ExistingText(gitignore: Option<string>): string {
    match gitignore
    case None => ""
    case Some(text) => text
  }

  /** The trimmed lines of the existing file, the `existingLines` set. */
  function PresentLines(gitignore: Option<string>): seq<string> {
    TrimAll(Lines(ExistingText(gitignore)))
  }

  /** `updateGitignore`. The header line is always among the appended lines,
      so the file is rewritten on every call, with the old content kept in front. */
  function UpdateGitignore(gitignore: Option<string>): (r: Update)
    ensures r.written.Some?
    ensures StartsWith(r.written.value, ExistingText(gitignore))
  {
    var existing := ExistingText(gitignore);
    var plan := PlanEntries(Entries, PresentLines(gitignore));
    assert Header in plan.newLines by {
      PlanPartition(Entries, PresentLines(gitignore));
      assert IsComment(Header) && Header in Entries;
    }
    var written := if |plan.newLines| > 0 then Some(existing + "\n" + JoinLines(plan.newLines) + "\n") else None;
    Update(plan.added, plan.skipped, written)
  }

  /** `added` and `skipped` partition the five patterns: a pattern is skipped
      exactly when it equals some trimmed line of the existing file; both keep
      the order of the entries and neither holds the header. */
  lemma UpdatePartition(gitignore: Option<string>)
    ensures var r := UpdateGitignore(gitignore);
      && (forall e :: e in r.added <==> e in Entries[1..] && e !in PresentLines(gitignore))
      && (forall e :: e in r.skipped <==> e in Entries[1..] && e in PresentLines(gitignore))
      && IsSubsequence(r.added, Entries) && IsSubsequence(r.skipped, Entries)
      && |r.added| + |r.skipped| == |Entries[1..]|
      && Header !in r.added && Header !in r.skipped
  {
    EntriesShape();
    PlanPartition(Entries, PresentLines(gitignore));
    assert forall e :: e in Entries && !IsComment(e) <==> e in Entries[1..];
  }

  /** The appended section is the header followed by the added patterns, one per line. */
  lemma UpdateContent(gitignore: Option<string>)
    ensures var r := UpdateGitignore(gitignore);
      r.written == Some(ExistingText(gitignore) + "\n" + JoinLines([Header] + r.added) + "\n")
  {
    EntriesShape();
    var plan := PlanEntries(Entries, PresentLines(gitignore));
    NewLinesAreAdded(Entries[1..], PresentLines(gitignore));
    assert Entries == [Header] + Entries[1..];
    assert plan.newLines == [Header] + plan.added;
  }

  /** The trimmed lines of the written file: the old ones, then the header and
      the added patterns, then the empty piece after the final newline. */
  lemma WrittenLines(gitignore: Option<string>)
    ensures var once := UpdateGitignore(gitignore);
      PresentLines(once.written) == PresentLines(gitignore) + (([Header] + once.added) + [""])
  {
    EntriesShape();
    UpdatePartition(gitignore);
    UpdateContent(gitignore);
    var once := UpdateGitignore(gitignore);
    var existing := ExistingText(gitignore);
    var appended := [Header] + once.added;
    forall i | 0 <= i < |appended|
      ensures '\n' !in appended[i] && Trim(appended[i]) == appended[i]
    {
      if i > 0 {
        assert appended[i] == once.added[i - 1];
        assert appended[i] in Entries[1..];
      }
      assert appended[i] in Entries;
    }
    var text := once.written.value;
    assert text == existing + "\n" + (JoinLines(appended) + "\n" + "");
    LinesAppend(existing, JoinLines(appended) + "\n" + "");
    LinesAppend(JoinLines(appended), "");
    LinesOfJoinLines(appended);
    assert Lines(text) == Lines(existing) + (appended + [""]);
    TrimAllAppend(Lines(existing), appended + [""]);
    assert TrimAll(appended + [""]) == appended + [""];
  }

  /** Running `updateGitignore` again on the file it wrote adds nothing and
      reports all five patterns as skipped. */
  lemma UpdateTwice(gitignore: Option<string>)
    ensures var once := UpdateGitignore(gitignore);
      var twice := UpdateGitignore(once.written);
      twice.added == [] && twice.skipped == Entries[1..]
  {
    EntriesShape();
    UpdatePartition(gitignore);
    WrittenLines(gitignore);
    var once := UpdateGitignore(gitignore);
    var present := PresentLines(once.written);
    forall e | e in Entries && !IsComment(e)
      ensures e in present
    {
      assert e in Entries[1..];
      if e in PresentLines(gitignore) {
        assert e in PresentLines(gitignore) + (([Header] + once.added) + [""]);
      } else {
        assert e in once.added;
        assert e in ([Header] + once.added) + [""];
      }
    }
    AllPresent(Entries, present);
  }

  /** A trimmed line that counts as an ignore rule matching `file`: not blank,
      not a comment, not negated, and equal to `file` or to its last path components. */
  predicate Ignores(pattern: string, file: string) {
    && pattern != ""
    && !IsComment(pattern)
    && !StartsWith(pattern, "!")
    && (file == pattern || EndsWith(file, "/" + pattern))
  }

  /** `.filter((l) => l && !l.startsWith("#"))`. */
  function Patterns(trimmed: seq<string>): (r: seq<string>)
    ensures |r| <= |trimmed|
    ensures forall i | 0 <= i < |r| :: r[i] != "" && !IsComment(r[i])
    ensures forall l :: l in r <==> l in trimmed && l != "" && !IsComment(l)
    ensures IsSubsequence(r, trimmed)
  {
    if |trimmed| == 0 then []
    else if trimmed[0] != "" && !IsComment(trimmed[0]) then [trimmed[0]] + Patterns(trimmed[1..])
    else Patterns(trimmed[1..])
  }

  /** The callback given to `some`. */
  predicate PatternMatches(pattern: string, file: string) {
    !StartsWith(pattern, "!") && (file == pattern || EndsWith(file, "/" + pattern))
  }

  /** Some pattern of the list passes the `some` callback. */
  predicate AnyPatternMatches(patterns: seq<string>, file: string) {
    exists i | 0 <= i < |patterns| :: PatternMatches(patterns[i], file)
  }

  /** `.some(...)`. */
  function SomeMatches(patterns: seq<string>, file: string): (r: bool)
    ensures r <==> AnyPatternMatches(patterns, file)
  {
    if |patterns| == 0 then false
    else PatternMatches(patterns[0], file) || SomeMatches(patterns[1..], file)
  }

  /** The filter followed by `some` finds a match exactly when some trimmed
      line is an ignore rule for the file. */
  lemma {:induction false} FilterThenSome(trimmed: seq<string>, file: string)
    ensures SomeMatches(Patterns(trimmed), file) <==> SomeTrimmedIgnores(trimmed, file)
    decreases |trimmed|
  {
    if |trimmed| > 0 {
      FilterThenSome(trimmed[1..], file);
      if exists i | 0 <= i < |trimmed[1..]| :: Ignores(trimmed[1..][i], file) {
        var i :| 0 <= i < |trimmed[1..]| && Ignores(trimmed[1..][i], file);
        assert Ignores(trimmed[i + 1], file);
      }
      if exists i | 0 <= i < |trimmed| :: Ignores(trimmed[i], file) {
        var i :| 0 <= i < |trimmed| && Ignores(trimmed[i], file);
        if i > 0 {
          assert Ignores(trimmed[1..][i - 1], file);
        }
      }
    }
  }

  /** Some line of `text`, once trimmed, is an ignore rule for `file`. */
  predicate SomeLineIgnores(text: string, file: string) {
    exists i | 0 <= i < |Lines(text)| :: Ignores(Trim(Lines(text)[i]), file)
  }

  /** Some trimmed line is an ignore rule for `file`. */
  predicate SomeTrimmedIgnores(trimmed: seq<string>, file: string) {
    exists i | 0 <= i < |trimmed| :: Ignores(trimmed[i], file)
  }

  lemma TrimmedLineIgnores(text: string, file: string)
    ensures SomeTrimmedIgnores(TrimAll(Lines(text)), file) <==> SomeLineIgnores(text, file)
  {
    var ls := Lines(text);
    var trimmed := TrimAll(ls);
    if i :| 0 <= i < |trimmed| && Ignores(trimmed[i], file) {
      assert Ignores(Trim(ls[i]), file);
    }
    if i :| 0 <= i < |ls| && Ignores(Trim(ls[i]), file) {
      assert Ignores(trimmed[i], file);
    }
  }

  /** `isGitignored`: false without a `.gitignore`; otherwise some line, once
      trimmed, is an ignore rule for `file` (no glob expansion). */
  function IsGitignored(gitignore: Option<string>, file: string): (r: bool)
    ensures gitignore.None? ==> !r
    ensures gitignore.Some? ==> (r <==> SomeLineIgnores(gitignore.value, file))
  {
    match gitignore
    case None => false
    case Some(text) =>
      var trimmed := TrimAll(Lines(text));
      FilterThenSome(trimmed, file);
      TrimmedLineIgnores(text, file);
      SomeMatches(Patterns(trimmed), file)
  }

  /** A blank line, a comment or a negated pattern added to the file never
      changes whether a file is ignored. */
  lemma InertLine(text: string, line: string, file: string)
    requires '\n' !in line
    requires Trim(line) == "" || StartsWith(Trim(line), "#") || StartsWith(Trim(line), "!")
    ensures IsGitignored(Some(text + "\n" + line), file) == IsGitignored(Some(text), file)
  {
    LinesAppend(text, line);
    LinesOfLine(line);
    var ls := Lines(text + "\n" + line);
    assert ls == Lines(text) + [line];
    assert !Ignores(Trim(line), file);
    if IsGitignored(Some(text + "\n" + line), file) {
      var i :| 0 <= i < |ls| && Ignores(Trim(ls[i]), file);
      assert i < |Lines(text)| && ls[i] == Lines(text)[i];
    }
    if IsGitignored(Some(text), file) {
      var i :| 0 <= i < |Lines(text)| && Ignores(Trim(Lines(text)[i]), file);
      assert ls[i] == Lines(text)[i];
    }
  }

  /** Patterns are literal: `.env.*` does not ignore `.env.local`. */
  lemma NoGlobExpansion()
    ensures !IsGitignored(Some(".env.*"), ".env.local")
  {
    var file := ".env.local";
    LinesOfLine(".env.*");
    TrimFixed(".env.*");
    assert file != ".env.*" by { assert |file| != |".env.*"|; }
    assert !EndsWith(file, "/" + ".env.*") by { assert file[3] != ("/" + ".env.*")[0]; }
    assert !Ignores(".env.*", file);
  }
}

=== FILE: hex.dfy ===
/** Bytes and the hexadecimal text form Node's `Buffer` uses for them:
    `toString("hex")` writes lower-case digits, `Buffer.from(s, "hex")` reads
    digits of either case, two per byte, high nibble first. */
module Hex {

  newtype byte = x: int | 0 <= x < 256

  predicate IsHexDigit(c: char) {
    '0' <= c <= '9' || 'a' <= c <= 'f' || 'A' <= c <= 'F'
  }

  predicate IsLowerHexDigit(c: char) {
    '0' <= c <= '9' || 'a' <= c <= 'f'
  }

  predicate IsHexText(s: string) {
    forall i | 0 <= i < |s| :: IsHexDigit(s[i])
  }

  /** The value of one hexadecimal digit, in either case. */
  function DigitValue(c: char): (v: nat)
    requires IsHexDigit(c)
    ensures v < 16
  {
    if c <= '9' then c as int - '0' as int
    else if c <= 'F' then c as int - 'A' as int + 10
    else c as int - 'a' as int + 10
  }

  /** The lower-case digit for a nibble. */
  function LowerDigit(v: nat): (c: char)
    requires v < 16
    ensures IsLowerHexDigit(c) && DigitValue(c) == v
  {
    if v < 10 then ('0' as int + v) as char else ('a' as int + v - 10) as char
  }

  /** ASCII lower-casing, the only case mapping hex digits need. */
  function AsciiLower(c: char): char {
    if 'A' <= c <= 'Z' then (c as int + 32) as char else c
  }

  function LowerText(s: string): string
  {
    seq(|s|, i requires 0 <= i < |s| => AsciiLower(s[i]))
  }

  /** `buf.toString("hex")`. */
  function Encode(bs: seq<byte>): (s: string)
    ensures |s| == 2 * |bs|
    ensures forall i | 0 <= i < |s| :: IsLowerHexDigit(s[i])
  {
    if |bs| == 0 then ""
    else [LowerDigit(bs[0] as int / 16), LowerDigit(bs[0] as int % 16)] + Encode(bs[1..])
  }

  /** `Buffer.from(s, "hex")` on text already known to be an even number of hex digits. */
  function Decode(s: string): (bs: seq<byte>)
    requires |s| % 2 == 0 && IsHexText(s)
    ensures |bs| == |s| / 2
  {
    if |s| == 0 then []
    else [(DigitValue(s[0]) * 16 + DigitValue(s[1])) as byte] + Decode(s[2..])
  }

  /** Reading back what `Encode` wrote gives the original bytes. */
  lemma {:induction false} DecodeEncode(bs: seq<byte>)
    ensures Decode(Encode(bs)) == bs
  {
    if |bs| > 0 {
      var s := Encode(bs);
      assert s[2..] == Encode(bs[1..]);
      DecodeEncode(bs[1..]);
      assert bs == [bs[0]] + bs[1..];
    }
  }

  /** Re-encoding decoded text gives the text with its digits lower-cased. */
  lemma {:induction false} EncodeDecode(s: string)
    requires |s| % 2 == 0 && IsHexText(s)
    ensures Encode(Decode(s)) == LowerText(s)
  {
    if |s| > 0 {
      var b := (DigitValue(s[0]) * 16 + DigitValue(s[1])) as byte;
      assert b as int / 16 == DigitValue(s[0]);
      assert b as int % 16 == DigitValue(s[1]);
      DigitLowered(s[0]);
      DigitLowered(s[1]);
      EncodeDecode(s[2..]);
      assert LowerText(s) == [AsciiLower(s[0]), AsciiLower(s[1])] + LowerText(s[2..]);
    }
  }

  /** The lower-case digit of a digit's value is that digit lower-cased. */
  lemma DigitLowered(c: char)
    requires IsHexDigit(c)
    ensures LowerDigit(DigitValue(c)) == AsciiLower(c)
  {
  }
}

=== FILE: hooks.dfy ===
/** The git post-merge hook of `src/hooks.ts`: installing it (skipped, updated
    or installed) and removing it by cutting the file at the marker line.
    The hook file is an `Option<string>` (absent file = `None`); whether
    `.git/hooks` exists is a parameter. */
module Hooks {
  import opened Results
  import opened JsText

  const HookMarker := "# envsync-hook"
  const Shebang := "#!/bin/sh"

  /** The script after the marker line. */
  const HookBody :=
    "# Auto-unlock .env after git pull/merge if a lock file is present\n"
    + "if command -v envsync &> /dev/null; then\n"
    + "  if [ -f \".env.locked\" ]; then\n"
    + "    echo \"\U{1F513} envsync: updating .env from .env.locked...\"\n"
    + "    envsync unlock --quiet || echo \"\U{26A0}\U{FE0F}  envsync: unlock failed (key missing?)\"\n"
    + "  fi\n"
    + "fi\n"

  /** The marker line and the script after it. */
  const MarkedBody := HookMarker + "\n" + HookBody

  /** POST_MERGE_HOOK. */
  const PostMergeHook := Shebang + "\n" + MarkedBody

  datatype InstallStatus = Installed | Updated | Skipped

  /** "No .git/hooks directory found. Is this a git repository?" */
  datatype HookError = NoHooksDirectory

  /** The reported status and the content written to the hook file, if any. */
  datatype Installation = Installation(status: InstallStatus, written: Option<string>)

  /** The hook file after an installation: what was written, else what was there. */
  function ContentAfter(hook: Option<string>, inst: Installation): Option<string> {
    if inst.written.Some? then inst.written else hook
  }

  /** The marker line sits right after the shebang line of the hook script. */
  lemma MarkerInHook()
    ensures Includes(PostMergeHook, HookMarker)
  {
    assert PostMergeHook == Script(HookBody);
    ScriptIncludesMarker(HookBody);
  }

  /** `installHook`. */
  function InstallHook(hooksDirExists: bool, hook: Option<string>): (r: Result<Installation, HookError>)
    ensures !hooksDirExists <==> r == Failure(NoHooksDirectory)
    ensures r.Success? && r.value.status == Skipped <==>
      hooksDirExists && hook.Some? && Includes(hook.value, HookMarker)
    ensures r.Success? && r.value.status == Skipped ==> r.value.written.None?
    ensures r.Success? && r.value.status == Updated ==>
      hook.Some? && r.value.written == Some(hook.value + "\n" + PostMergeHook)
    ensures r.Success? && r.value.status == Updated ==> StartsWith(r.value.written.value, hook.value)
    ensures r.Success? && r.value.status == Installed <==> hooksDirExists && hook.None?
    ensures r.Success? && r.value.status == Installed ==> r.value.written == Some(PostMergeHook)
    ensures r.Success? ==>
      var after := ContentAfter(hook, r.value);
      after.Some? && Includes(after.value, HookMarker)
  {
    if !hooksDirExists then Failure(NoHooksDirectory)
    else
      match hook
      case Some(content) =>
        if Includes(content, HookMarker) then Success(Installation(Skipped, None))
        else
          MarkerInHook();
          IncludesPrepend(content + "\n", PostMergeHook, HookMarker);
          Success(Installation(Updated, Some(content + "\n" + PostMergeHook)))
      case None =>
        MarkerInHook();
        Success(Installation(Installed, Some(PostMergeHook)))
  }

  /** Installing twice: whatever the first call did, the second one is skipped
      and writes nothing. */
  lemma InstallTwice(hooksDirExists: bool, hook: Option<string>)
    requires InstallHook(hooksDirExists, hook).Success?
    ensures var first := InstallHook(hooksDirExists, hook).value;
      InstallHook(true, ContentAfter(hook, first)) == Success(Installation(Skipped, None))
  {
  }

  /** `lines.findIndex((l) => l.trim() === HOOK_MARKER)`: the first line that
      trims to the marker, or -1. */
  function FindMarkerLine(lines: seq<string>): (k: int)
    ensures -1 <= k < |lines|
    ensures k == -1 <==> forall i | 0 <= i < |lines| :: Trim(lines[i]) != HookMarker
    ensures k >= 0 ==> Trim(lines[k]) == HookMarker
    ensures k >= 0 ==> forall i | 0 <= i < k :: Trim(lines[i]) != HookMarker
  {
    if |lines| == 0 then -1
    else if Trim(lines[0]) == HookMarker then 0
    else
      var k := FindMarkerLine(lines[1..]);
      if k == -1 then -1 else k + 1
  }

  /** Some line of the text, once trimmed, is exactly the marker. */
  predicate HasMarkerLine(text: string) {
    exists i | 0 <= i < |Lines(text)| :: Trim(Lines(text)[i]) == HookMarker
  }

  /** A marker line implies the marker occurs in the text, so the `includes`
      test of `removeHook` never decides anything the line search would not. */
  lemma MarkerLineIncluded(text: string)
    ensures HasMarkerLine(text) ==> Includes(text, HookMarker)
  {
    if HasMarkerLine(text) {
      MarkerLineIncludedAt(text);
    }
  }

  lemma MarkerLineIncludedAt(text: string)
    requires HasMarkerLine(text)
    ensures Includes(text, HookMarker)
  {
    var i :| 0 <= i < |Lines(text)| && Trim(Lines(text)[i]) == HookMarker;
    LineIncludedIn(text, i);
    TrimIncluded(Lines(text)[i]);
    IncludesTransitive(text, Lines(text)[i], HookMarker);
  }

  /** What `removeHook` returns and what it writes, if anything. */
  datatype Removal = Removal(removed: bool, written: Option<string>)

  /** `removeHook`: everything from the first marker line on is dropped, the
      rest is trimmed at the end and newline-terminated; a remainder no longer
      than "#!/bin/sh" (in UTF-16 units) is replaced by that shebang line. */
  function RemoveHook(hook: Option<string>): (r: Removal)
    ensures r.written.Some? <==> r.removed
    ensures r.removed <==> hook.Some? && HasMarkerLine(hook.value)
    ensures r.removed ==>
      var w := r.written.value;
      || w == Shebang + "\n"
      || (&& EndsWith(w, "\n")
          && StartsWith(hook.value, w[..|w| - 1])
          && Utf16Length(w[..|w| - 1]) > |Shebang|)
  {
    match hook
    case None => Removal(false, None)
    case Some(content) =>
      if !Includes(content, HookMarker) then
        MarkerLineIncluded(content);
        Removal(false, None)
      else
        var lines := Lines(content);
        var k := FindMarkerLine(lines);
        if k == -1 then Removal(false, None)
        else
          var kept := JoinLines(lines[..k]);
          var cleaned := TrimEnd(kept);
          // "#!/bin/sh".length: the shebang is ASCII, one UTF-16 unit per character
          if Utf16Length(cleaned) <= |Shebang| then Removal(true, Some(Shebang + "\n"))
          else
            JoinLinesOfLines(content);
            JoinLinesPrefix(lines, k);
            TrimEndIsPrefix(kept);
            StartsWithTransitive(content, kept, cleaned);
            assert (cleaned + "\n")[..|cleaned|] == cleaned;
            Removal(true, Some(cleaned + "\n"))
  }

  /** When line `k` is the first line that trims to the marker, removal keeps
      the lines before it, joined and trimmed at the end, plus a newline; or
      just the shebang line when that text is no longer than "#!/bin/sh". */
  lemma RemoveCutsAtFirstMarker(content: string, k: nat)
    requires k < |Lines(content)| && Trim(Lines(content)[k]) == HookMarker
    requires forall i | 0 <= i < k :: Trim(Lines(content)[i]) != HookMarker
    ensures var cleaned := TrimEnd(JoinLines(Lines(content)[..k]));
      RemoveHook(Some(content)) ==
        Removal(true, Some(if Utf16Length(cleaned) <= |Shebang| then Shebang + "\n" else cleaned + "\n"))
  {
    assert HasMarkerLine(content);
    MarkerLineIncludedAt(content);
    var found := FindMarkerLine(Lines(content));
    assert found == k;
  }

  /** A hook script: the shebang line, the marker line, then `body`. The
      installed script is `Script(HookBody)`; the lemmas below hold whatever
      the body is. */
  function Script(body: string): string {
    Shebang + "\n" + (HookMarker + "\n" + body)
  }

  lemma TwoLinesThen(first: string, second: string, rest: string)
    requires '\n' !in first && '\n' !in second
    ensures Lines(first + "\n" + (second + "\n" + rest)) == [first] + ([second] + Lines(rest))
  {
    LinesAppend(first, second + "\n" + rest);
    LinesAppend(second, rest);
    LinesOfLine(first);
    LinesOfLine(second);
  }

  lemma ScriptLines(body: string)
    ensures Lines(Script(body)) == [Shebang] + ([HookMarker] + Lines(body))
  {
    TwoLinesThen(Shebang, HookMarker, body);
  }

  lemma ScriptIncludesMarker(body: string)
    ensures Includes(Script(body), HookMarker)
  {
    var at := |Shebang| + 1;
    assert Script(body)[at..at + |HookMarker|] == HookMarker;
    assert OccursAt(Script(body), HookMarker, at);
  }

  /** The lines of the hook script start with the shebang line and the marker line. */
  lemma HookLines()
    ensures |Lines(PostMergeHook)| >= 2
    ensures Lines(PostMergeHook)[0] == Shebang && Lines(PostMergeHook)[1] == HookMarker
  {
    assert PostMergeHook == Script(HookBody);
    ScriptLines(HookBody);
  }

  /** Removing a script that is the whole hook file leaves only the shebang line. */
  lemma RemoveScript(body: string)
    ensures RemoveHook(Some(Script(body))) == Removal(true, Some(Shebang + "\n"))
  {
    ScriptLines(body);
    ScriptIncludesMarker(body);
    var lines := Lines(Script(body));
    TrimFixed(Shebang);
    TrimFixed(HookMarker);
    assert lines[0] == Shebang && lines[1] == HookMarker;
    assert Trim(lines[0]) != HookMarker;
    assert FindMarkerLine(lines) == 1;
    assert lines[..1] == [Shebang];
    assert TrimEnd(Shebang) == Shebang;
  }

  /** Removing a freshly installed hook leaves only the shebang line. */
  lemma RemoveAfterInstall()
    ensures RemoveHook(Some(PostMergeHook)) == Removal(true, Some(Shebang + "\n"))
  {
    assert PostMergeHook == Script(HookBody);
    RemoveScript(HookBody);
  }

  /** A text without the marker has no line that trims to it. */
  lemma NoMarkerLines(text: string)
    requires !Includes(text, HookMarker)
    ensures forall i | 0 <= i < |Lines(text)| :: Trim(Lines(text)[i]) != HookMarker
  {
    MarkerLineIncluded(text);
  }

  /** The marker search skips a marker-free prefix. */
  lemma {:induction false} FindMarkerSkips(xs: seq<string>, ys: seq<string>)
    requires forall i | 0 <= i < |xs| :: Trim(xs[i]) != HookMarker
    requires FindMarkerLine(ys) >= 0
    ensures FindMarkerLine(xs + ys) == |xs| + FindMarkerLine(ys)
    decreases |xs|
  {
    if |xs| > 0 {
      assert (xs + ys)[1..] == xs[1..] + ys;
      assert (xs + ys)[0] == xs[0];
      FindMarkerSkips(xs[1..], ys);
    } else {
      assert xs + ys == ys;
    }
  }

  /** The marker search skips a marker-free prefix and one more line. */
  lemma FindMarkerAfter(xs: seq<string>, ys: seq<string>)
    requires forall i | 0 <= i < |xs| :: Trim(xs[i]) != HookMarker
    requires |ys| >= 2 && Trim(ys[0]) != HookMarker && Trim(ys[1]) == HookMarker
    ensures FindMarkerLine(xs + ys) == |xs| + 1
  {
    assert ys[1..][0] == ys[1];
    assert FindMarkerLine(ys[1..]) == 0;
    assert FindMarkerLine(ys) == 1;
    FindMarkerSkips(xs, ys);
  }

  /** The lines of a file with two lines and a rest appended after a newline. */
  lemma AppendedLines(previous: string, first: string, second: string, rest: string)
    requires '\n' !in first && '\n' !in second
    ensures Lines(previous + "\n" + (first + "\n" + (second + "\n" + rest)))
      == Lines(previous) + ([first] + ([second] + Lines(rest)))
  {
    LinesAppend(previous, first + "\n" + (second + "\n" + rest));
    TwoLinesThen(first, second, rest);
  }

  /** In a file ending with an appended script, the first marker line is the
      script's own, right after its first line. */
  lemma AppendedMarkerLineOf(previous: string, first: string, second: string, rest: string)
    requires !Includes(previous, HookMarker)
    requires '\n' !in first && '\n' !in second
    requires Trim(first) != HookMarker && Trim(second) == HookMarker
    ensures var lines := Lines(previous + "\n" + (first + "\n" + (second + "\n" + rest)));
      var n := |Lines(previous)|;
      && FindMarkerLine(lines) == n + 1
      && lines[..n + 1] == Lines(previous) + [first]
  {
    var xs := Lines(previous);
    var ys := [first] + ([second] + Lines(rest));
    AppendedLines(previous, first, second, rest);
    assert Lines(previous + "\n" + (first + "\n" + (second + "\n" + rest))) == xs + ys;
    NoMarkerLines(previous);
    assert ys[0] == first && ys[1] == second;
    FindMarkerAfter(xs, ys);
    assert (xs + ys)[..|xs| + 1] == xs + [first];
  }

  lemma AppendedMarkerLine(previous: string, body: string)
    requires !Includes(previous, HookMarker)
    ensures var lines := Lines(previous + "\n" + Script(body));
      var n := |Lines(previous)|;
      && FindMarkerLine(lines) == n + 1
      && lines[..n + 1] == Lines(previous) + [Shebang]
  {
    TrimFixed(Shebang);
    TrimFixed(HookMarker);
    AppendedMarkerLineOf(previous, Shebang, HookMarker, body);
  }

  /** Removing a script appended to another keeps the other one, followed by
      the shebang line that opened the appended block. */
  lemma RemoveAppendedScript(previous: string, body: string)
    requires !Includes(previous, HookMarker)
    ensures RemoveHook(Some(previous + "\n" + Script(body))) == Removal(true, Some(previous + "\n" + Shebang + "\n"))
  {
    var content := previous + "\n" + Script(body);
    AppendedMarkerLine(previous, body);
    ScriptIncludesMarker(body);
    IncludesPrepend(previous + "\n", Script(body), HookMarker);
    KeptBeforeScript(previous);
  }

  /** What is left before the appended script: the previous text and the shebang line. */
  lemma KeptBeforeScript(previous: string)
    ensures var kept := previous + "\n" + Shebang;
      && JoinLines(Lines(previous) + [Shebang]) == kept
      && TrimEnd(kept) == kept
      && Utf16Length(kept) > |Shebang|
  {
    JoinLinesSnoc(Lines(previous), Shebang);
    JoinLinesOfLines(previous);
    var kept := previous + "\n" + Shebang;
    assert kept[|kept| - 1] == 'h';
  }

  /** Removing the hook from a script it was appended to keeps the previous script,
      followed by the shebang line that opened the appended block. */
  lemma RemoveAfterUpdate(previous: string)
    requires !Includes(previous, HookMarker)
    ensures RemoveHook(Some(previous + "\n" + PostMergeHook)) == Removal(true, Some(previous + "\n" + Shebang + "\n"))
  {
    assert PostMergeHook == Script(HookBody);
    RemoveAppendedScript(previous, HookBody);
  }
}

=== FILE: jstext.dfy ===
/** The few JavaScript string operations envsync relies on, over
    strings of Unicode scalar values: `trim`/`trimEnd`, `split("\n")`,
    `join("\n")`, `includes`, `startsWith`, `endsWith` and the UTF-16 `length`. */
module JsText {

  /** The characters JavaScript's `trim` removes and `\s` matches:
      WhiteSpace (including every space separator) and LineTerminator. */
  predicate IsJsSpace(c: char) {
    || c == '\t' || c == '\n' || c == '\U{000B}' || c == '\U{000C}' || c == '\r'
    || c == ' ' || c == '\U{00A0}' || c == '\U{1680}'
    || ('\U{2000}' <= c <= '\U{200A}')
    || c == '\U{2028}' || c == '\U{2029}' || c == '\U{202F}' || c == '\U{205F}'
    || c == '\U{3000}' || c == '\U{FEFF}'
  }

  /** The characters a regular-expression `.` does not match. */
  predicate IsLineTerminator(c: char) {
    c == '\n' || c == '\r' || c == '\U{2028}' || c == '\U{2029}'
  }

  predicate StartsWith(s: string, prefix: string) {
    |prefix| <= |s| && s[..|prefix|] == prefix
  }

  predicate EndsWith(s: string, suffix: string) {
    |suffix| <= |s| && s[|s| - |suffix|..] == suffix
  }

  /** `sub` occurs in `s` starting at position `i`. */
  predicate OccursAt(s: string, sub: string, i: nat) {
    i + |sub| <= |s| && s[i..i + |sub|] == sub
  }

  /** `s.includes(sub)`: `sub` occurs somewhere in `s`. */
  predicate Includes(s: string, sub: string) {
    exists i: nat | i <= |s| :: OccursAt(s, sub, i)
  }

  /** An occurrence inside `b` is still an occurrence after anything is put in front of it. */
  lemma IncludesPrepend(a: string, b: string, sub: string)
    requires Includes(b, sub)
    ensures Includes(a + b, sub)
  {
    var i: nat :| i <= |b| && OccursAt(b, sub, i);
    assert (a + b)[|a| + i..|a| + i + |sub|] == sub;
    assert OccursAt(a + b, sub, |a| + i);
  }

  /** `s.trimStart()`. */
  function TrimStart(s: string): (r: string)
    ensures |r| <= |s|
    decreases |s|
  {
    if |s| > 0 && IsJsSpace(s[0]) then TrimStart(s[1..]) else s
  }

  /** `s.trimEnd()`. */
  function TrimEnd(s: string): (r: string)
    ensures |r| <= |s|
    decreases |s|
  {
    if |s| > 0 && IsJsSpace(s[|s| - 1]) then TrimEnd(s[..|s| - 1]) else s
  }

  /** `s.trim()`. */
  function Trim(s: string): string {
    TrimEnd(TrimStart(s))
  }

  /** A string that begins and ends with a non-space character trims to itself. */
  lemma TrimFixed(s: string)
    requires |s| > 0 && !IsJsSpace(s[0]) && !IsJsSpace(s[|s| - 1])
    ensures Trim(s) == s
  {
  }

  /** `s.split("\n")`: the pieces between newline characters; never empty. */
  function Lines(s: string): (r: seq<string>)
    ensures |r| >= 1
    decreases |s|
  {
    if |s| == 0 then [""]
    else if s[0] == '\n' then [""] + Lines(s[1..])
    else
      var rest := Lines(s[1..]);
      [[s[0]] + rest[0]] + rest[1..]
  }

  /** `xs.join("\n")`. */
  function JoinLines(xs: seq<string>): string
    decreases |xs|
  {
    if |xs| == 0 then ""
    else if |xs| == 1 then xs[0]
    else xs[0] + "\n" + JoinLines(xs[1..])
  }

  /** A string without newlines splits into itself. */
  lemma {:induction false} LinesOfLine(s: string)
    requires '\n' !in s
    ensures Lines(s) == [s]
    decreases |s|
  {
    if |s| > 0 {
      assert s[0] in s;
      assert forall c | c in s[1..] :: c in s;
      LinesOfLine(s[1..]);
      assert [s[0]] + s[1..] == s;
    }
  }

  /** Splitting distributes over a newline: the lines of `a + "\n" + b` are
      the lines of `a` followed by the lines of `b`. */
  lemma {:induction false} LinesAppend(a: string, b: string)
    ensures Lines(a + "\n" + b) == Lines(a) + Lines(b)
    decreases |a|
  {
    var s := a + "\n" + b;
    if |a| == 0 {
      assert s == "\n" + b;
      assert s[1..] == b;
    } else {
      assert s[0] == a[0];
      assert s[1..] == a[1..] + "\n" + b;
      LinesAppend(a[1..], b);
    }
  }

  /** Joining the pieces of a split gives back the original string. */
  lemma {:induction false} JoinLinesOfLines(s: string)
    ensures JoinLines(Lines(s)) == s
    decreases |s|
  {
    if |s| > 0 {
      var rest := Lines(s[1..]);
      JoinLinesOfLines(s[1..]);
      if s[0] == '\n' {
        assert Lines(s) == [""] + rest;
        assert ([""] + rest)[1..] == rest;
        assert JoinLines(Lines(s)) == "" + "\n" + JoinLines(rest);
        assert s == [s[0]] + s[1..];
      } else {
        var first := [s[0]] + rest[0];
        assert Lines(s) == [first] + rest[1..];
        if |rest| == 1 {
          assert JoinLines(rest) == rest[0];
          assert s == [s[0]] + s[1..];
        } else {
          assert JoinLines(rest) == rest[0] + "\n" + JoinLines(rest[1..]);
          assert ([first] + rest[1..])[1..] == rest[1..];
          assert s == [s[0]] + s[1..];
        }
      }
    }
  }

  /** Splitting a join of newline-free lines gives back those lines. */
  lemma {:induction false} LinesOfJoinLines(xs: seq<string>)
    requires |xs| >= 1
    requires forall i | 0 <= i < |xs| :: '\n' !in xs[i]
    ensures Lines(JoinLines(xs)) == xs
    decreases |xs|
  {
    if |xs| == 1 {
      LinesOfLine(xs[0]);
    } else {
      LinesOfJoinLines(xs[1..]);
      LinesOfLine(xs[0]);
      LinesAppend(xs[0], JoinLines(xs[1..]));
      assert xs == [xs[0]] + xs[1..];
    }
  }

  /** Appending one more line to a non-empty join. */
  lemma {:induction false} JoinLinesSnoc(xs: seq<string>, y: string)
    requires |xs| >= 1
    ensures JoinLines(xs + [y]) == JoinLines(xs) + "\n" + y
    decreases |xs|
  {
    if |xs| == 1 {
      assert (xs + [y])[1..] == [y];
    } else {
      assert (xs + [y])[1..] == xs[1..] + [y];
      JoinLinesSnoc(xs[1..], y);
    }
  }

  /** Joining a prefix of the lines gives a prefix of the whole join. */
  lemma {:induction false} JoinLinesPrefix(xs: seq<string>, k: nat)
    requires k <= |xs|
    ensures StartsWith(JoinLines(xs), JoinLines(xs[..k]))
    decreases |xs|
  {
    if k == 0 {
    } else if |xs| == 1 {
      assert xs[..k] == xs;
    } else if k == 1 {
      assert JoinLines(xs[..1]) == xs[0];
    } else {
      JoinLinesPrefix(xs[1..], k - 1);
      assert xs[..k][1..] == xs[1..][..k - 1];
      assert JoinLines(xs[..k]) == xs[0] + "\n" + JoinLines(xs[1..][..k - 1]);
    }
  }

  /** `includes` is transitive: an occurrence inside an occurrence is an occurrence. */
  lemma IncludesTransitive(a: string, b: string, c: string)
    requires Includes(a, b) && Includes(b, c)
    ensures Includes(a, c)
  {
    var i: nat :| i <= |a| && OccursAt(a, b, i);
    var j: nat :| j <= |b| && OccursAt(b, c, j);
    forall k | 0 <= k < |c|
      ensures a[i + j + k] == c[k]
    {
      assert c[k] == b[j + k] && b[j + k] == a[i + j + k];
    }
    assert a[i + j..i + j + |c|] == c;
    assert OccursAt(a, c, i + j);
  }

  /** Every piece of a join occurs in the joined text. */
  lemma {:induction false} JoinLinesIncludes(xs: seq<string>, k: nat)
    requires k < |xs|
    ensures Includes(JoinLines(xs), xs[k])
    decreases |xs|
  {
    if k == 0 {
      assert OccursAt(JoinLines(xs), xs[0], 0);
    } else {
      JoinLinesIncludes(xs[1..], k - 1);
      IncludesPrepend(xs[0] + "\n", JoinLines(xs[1..]), xs[k]);
      assert JoinLines(xs) == xs[0] + "\n" + JoinLines(xs[1..]);
    }
  }

  /** Every line of a text occurs in the text. */
  lemma LineIncludedIn(s: string, k: nat)
    requires k < |Lines(s)|
    ensures Includes(s, Lines(s)[k])
  {
    JoinLinesOfLines(s);
    JoinLinesIncludes(Lines(s), k);
  }

  /** `trimStart` drops a prefix of the string. */
  lemma {:induction false} TrimStartIsSuffix(s: string)
    ensures EndsWith(s, TrimStart(s))
    decreases |s|
  {
    if |s| > 0 && IsJsSpace(s[0]) {
      TrimStartIsSuffix(s[1..]);
    }
  }

  /** `trimEnd` keeps a prefix of the string. */
  lemma {:induction false} TrimEndIsPrefix(s: string)
    ensures StartsWith(s, TrimEnd(s))
    decreases |s|
  {
    if |s| > 0 && IsJsSpace(s[|s| - 1]) {
      TrimEndIsPrefix(s[..|s| - 1]);
    }
  }

  /** The trimmed string occurs in the original. */
  lemma TrimIncluded(s: string)
    ensures Includes(s, Trim(s))
  {
    var t := TrimStart(s);
    TrimStartIsSuffix(s);
    TrimEndIsPrefix(t);
    assert s[|s| - |t|..|s| - |t| + |Trim(s)|] == t[..|Trim(s)|];
    assert OccursAt(s, Trim(s), |s| - |t|);
  }

  /** A prefix of a prefix is a prefix. */
  lemma StartsWithTransitive(a: string, b: string, c: string)
    requires StartsWith(a, b) && StartsWith(b, c)
    ensures StartsWith(a, c)
  {
    assert a[..|c|] == b[..|c|];
  }

  /** The number of UTF-16 code units of one character: 2 outside the basic plane. */
  function CodeUnits(c: char): nat {
    if c as int > 0xFFFF then 2 else 1
  }

  /** JavaScript's `length`, which counts UTF-16 code units rather than characters. */
  function Utf16Length(s: string): (n: nat)
    ensures |s| <= n <= 2 * |s|
    decreases |s|
  {
    if |s| == 0 then 0 else CodeUnits(s[0]) + Utf16Length(s[1..])
  }
}

=== FILE: results.dfy ===
/** Failure-carrying wrappers used in place of the thrown exceptions and the
    optional file contents of envsync. */
module Results {

  /** A value that may be absent, e.g. the content of a file that may not exist. */
  datatype Option<+T> = None | Some(value: T)

  /** The outcome of an operation that either returns a value or throws. */
  datatype Result<+T, +E> = Success(value: T) | Failure(error: E)
}
